=== FILE: README.md ===
# Station OPC UA server: state machine and node manager

This project models, in Dafny, the two pieces of sequential logic inside the
simulated-station OPC UA server sample:

- **The station state machine** (`StationState.cs`). A station has a status
  (Ready, WorkInProgress, Fault), a product serial number, a manufactured
  count, a discarded count, an actual cycle time, a pressure and a clock.
  The commands Execute, Reset and OpenPressureReleaseValve and the clock's
  tick are pure functions from one station record to the next
  (module `StationState`). Multi-tick and command-sequence properties are
  in module `StationLemmas`.
- **The station node manager** (`StationNodeManager.cs`). It covers the
  namespace registration and the numeric node-id allocator. It covers the
  folder and method constructors and the hook that binds command handlers
  to method nodes by display name. It also covers the handlers the manager
  binds, the node-set import once the file is parsed, and the address-space
  build that links the station's `AssetAdminShell` root under the standard
  Objects folder
  (module `StationNodeManager`). Properties relating several of these
  operations are in module `NodeManagerLemmas`.

Nodes are immutable records keyed by node id. The predefined-node table and
the external-reference table are maps. The source's object references
(parent, children) become node ids. `ulong` counters are the subset type
`U64`. The C# unchecked `++` wraps at 2^64 and is written out (`Inc64`). So
is the unchecked `(int)` cast of the cycle time used to re-arm the clock
(`ToInt32`).

Modules: `Wrappers` (Option), `StationState`, `StationLemmas`,
`StationNodeManager`, `NodeManagerLemmas`.

## Behaviour worth knowing

The model follows the code literally. These consequences of the code are
worth knowing. In this revision no tick ever actually runs: the station
clock is never constructed (StationState.cs:131 is commented out), and the
type switch in the behaviour hook has no cases (StationNodeManager.cs:153-159),
so no station object is ever created. The tick consequences below describe
what the tick logic would do if it were driven.

- A tick never writes the serial number. Only Execute does
  (StationState.cs:142).
- The comment at StationState.cs:177-178 says a part is discarded every
  100 parts and the station faults every 1000 parts. In the code the
  discard branch does not advance the manufactured count. A count that
  reaches a multiple of 100 that is not a multiple of 1000 therefore stays
  there and discards on every tick. From a count of 1 the station never
  faults (`StationLemmas.StaysBetweenOneAndHundred`,
  `StationLemmas.NeverFaultsFromOne`).
- A count of 0 faults on the first tick. The fault branch does not move
  the count either, so after Reset the next tick faults again
  (`StationLemmas.FaultReturnsAfterReset`).
- The handlers the node manager binds to the Execute, Reset and
  OpenPressureReleaseValve method nodes are the manager's own stubs
  (StationNodeManager.cs:164-193). Their bodies are commented out: they
  return Good and change nothing. The station's own handlers are never bound
  in this revision (`NodeManagerLemmas.BoundExecuteIgnoresFault`).

## Model

| member | source | states |
|---|---|---|
| StationState.StatusOfCode | StationState.cs:9-14 | A status code maps back to a status exactly for 0, 1 and 2, and the status found has that code |
| StationLemmas.StatusCodeRoundTrip | StationState.cs:9-14 | Each status's integer code maps back to that same status |
| StationState.Execute | StationState.cs:134-149 | Fails with the "call reset first" message, and changes nothing, exactly when the status is Fault. Otherwise it takes the caller's serial number, moves to WorkInProgress and re-arms the clock at the actual cycle time cast to int. Both counters, the pressure and the cycle time never change |
| StationState.Reset | StationState.cs:151-156 | From any status: status becomes Ready, result Good, every other field unchanged |
| StationState.OpenPressureReleaseValve | StationState.cs:158-163 | From any state: pressure becomes 1000, result Good, every other field unchanged |
| StationLemmas.OpenPressureReleaseValveIdempotent | StationState.cs:158-163 | Opening the valve twice gives the same station and result as opening it once |
| StationState.Tick | StationState.cs:170-191 | Only status, manufactured or discarded can change, and at most one of them. In Fault the tick changes nothing. The station faults iff the count is a multiple of 1000. It discards iff the count is a multiple of 100 but not of 1000. It manufactures iff the count is not a multiple of 100. A changed counter moves by one `ulong` increment |
| StationState.TickN | StationState.cs:165-168 | Any number of clock callbacks keeps the serial number, pressure, clock and cycle time, and a faulted station stays faulted |
| StationLemmas.FaultIsAbsorbing | StationState.cs:172-175 | From Fault, any number of ticks leaves every field unchanged |
| StationLemmas.ManufactureRun | StationState.cs:187-190 | Ticks that do not reach past the next multiple of 100 each add exactly one to the manufactured count and change nothing else |
| StationLemmas.DiscardRun | StationState.cs:183-186 | On a multiple of 100 that is not a multiple of 1000, n ticks add n to the discarded count and never move the manufactured count |
| StationLemmas.StaysBetweenOneAndHundred | StationState.cs:170-191 | Outside Fault, a manufactured count in 1..100 stays in 1..100 under any number of ticks and the status never changes, so Fault is never reached |
| StationLemmas.NeverFaultsFromOne | StationState.cs:177-190 | From a manufactured count of 1, and while the discarded count stays below 2^64, the count reaches 100 after 99 ticks and then every tick adds exactly one discarded part |
| StationLemmas.CountersNeverDecrease | StationState.cs:170-191 | Below the 2^64 wrap, ticks never decrease either counter, and n ticks add at most n parts in total |
| StationLemmas.OnePartPerTick | StationState.cs:179-190 | Outside Fault and off a multiple of 1000, a tick adds exactly one part, kept or discarded, and keeps the status |
| StationLemmas.FaultReturnsAfterReset | StationState.cs:179-182 | A fault raised on a multiple of 1000 comes back on the first tick after Reset, with the manufactured count unmoved |
| StationLemmas.ResetThenExecute | StationState.cs:134-156 | Reset followed by Execute always succeeds. It takes the new serial number and keeps both counters and the pressure |
| StationNodeManager.GetIndexOrAppend | StationNodeManager.cs:21 | The returned index holds the URI and is its first occurrence. A known URI leaves the table unchanged; an unknown one is appended at the end |
| StationNodeManager.Construct | StationNodeManager.cs:12-23 | The manager's namespace index names the first occurrence of the station URI in the server table, the URI is appended only when missing, and the id counter starts at 0 |
| StationNodeManager.New | StationNodeManager.cs:25-29 | An id is returned iff the counter is below 2^32-1. The id is numeric, in the manager's namespace, one above the last id used, and becomes the new last id |
| NodeManagerLemmas.AllocateAllConsecutive | StationNodeManager.cs:25-29 | n successive allocations return the n numbers after the last one used, in order, all in the manager's namespace |
| NodeManagerLemmas.AllocatedIdsDistinct | StationNodeManager.cs:25-29 | Ids allocated by one manager are pairwise distinct |
| NodeManagerLemmas.FirstIdIsOne | StationNodeManager.cs:12-29 | The first id of a freshly built manager is 1, in the namespace registered for the station URI |
| StationNodeManager.CreateFolder | StationNodeManager.cs:31-48 | Node id and browse name are the path in the manager's namespace, display name is `name` in "en", Organizes / FolderType, nothing writable, no event notifier. With a parent the folder becomes the parent's last child and the parent is otherwise unchanged; without one no parent exists |
| StationNodeManager.AddChild | StationNodeManager.cs:45 | Attaching a child appends exactly the child's id to the parent's children, keeps the earlier children in order, changes no other field of the parent, and links a child that names this parent in both directions |
| StationNodeManager.CreateMethod | StationNodeManager.cs:50-68 | Same id and name rule, HasComponent, executable and user-executable. With a parent it becomes the parent's last child |
| StationNodeManager.AddBehaviourToPredefinedNode | StationNodeManager.cs:122-162 | Returns the node it was given, with the same id. A method node named Execute, Reset or OpenPressureReleaseValve gets that command's handler. Any other node comes back unchanged |
| NodeManagerLemmas.BehaviourHookIdempotent | StationNodeManager.cs:122-162 | Running the hook a second time changes nothing |
| StationNodeManager.Call | StationNodeManager.cs:97-193 | Each handler the manager binds returns Good and leaves the station unchanged: the package-export handler `OnGenerateAASCall` (lines 97-101) and the three command stubs (lines 164-193) |
| NodeManagerLemmas.BoundExecuteIgnoresFault | StationNodeManager.cs:164-179 | In Fault the station's own Execute refuses, while the Execute stub the manager binds reports Good and changes nothing |
| StationNodeManager.AddPredefinedNode | StationNodeManager.cs:91 | The table gains the node's id, holding the node after the behaviour hook; every other entry is kept |
| NodeManagerLemmas.FindAfterAdd | StationNodeManager.cs:91 | A registered node is found under its id in hooked form; an id never registered is reported absent |
| StationNodeManager.RegisterImportedNodes | StationNodeManager.cs:116-119 | After registering the first n nodes of a batch the table's keys are the old keys plus their ids. Each id holds the hooked form of the last of those nodes with that id. Entries outside the batch are kept |
| StationNodeManager.AppendNamespaces | StationNodeManager.cs:110-113 | The namespace table keeps its entries at their positions, every URI of the node set is present afterwards, and each new entry is a URI of the node set that was missing. No URI is appended twice, so each gets exactly one index. New URIs are appended in the order of their first use in the node set, which fixes the index each one receives |
| StationNodeManager.ImportNodeset2Xml | StationNodeManager.cs:103-120 | Given the parsed node set: its namespace URIs are registered with earlier entries kept, each new entry a missing URI of the node set, none appended twice, and the new entries in first-use order; its nodes are registered through the hook, last node per id winning, with entries outside the batch kept |
| StationNodeManager.EnsureObjectsFolderEntry | StationNodeManager.cs:74-78 | Afterwards the Objects folder has a reference list. An existing list is kept; a missing one starts empty; no other entry changes |
| StationNodeManager.CreateAddressSpace | StationNodeManager.cs:70-92 | Up to the reverse-reference pass: exactly one Organizes reference to the AssetAdminShell root is appended to the Objects folder's list, and every other external entry is kept. The node set's namespaces are registered, each missing URI appended exactly once, in first-use order, and nothing else appended. The table gains the imported batch's ids and then the root and GenerateAAS, which override an imported node with the same id. The root carries the inverse reference, subscribes to events and has GenerateAAS as its only child. GenerateAAS is bound to the export handler |
| NodeManagerLemmas.CreateAddressSpaceKeepsExistingEntry | StationNodeManager.cs:74-84 | A second build appends to the list the first build created instead of replacing it |

## Left out

- Program.cs is not part of this model. It covers process start-up, configuration loading, certificate trust and console prompts, which are I/O and library calls.
- Locking (`lock (Lock)` and the atomic counter increment): every operation is modelled as one atomic, sequential step.
- Source timestamps and change masks after a tick (StationState.cs:192-209): wall-clock time and SDK internals.
- The commented-out default initialisation in `OnAfterCreate` (StationState.cs:27-128). Initial field values come from the imported node set, so every lemma quantifies over arbitrary starting records.
- Energy consumption and the ideal cycle time: no modelled operation reads or writes them.
- The status is modelled as a three-valued datatype. The source stores it in an integer variable and compares it through `(int)` casts (StationState.cs:136, 172), so that variable could hold a value outside 0..2. The model cannot represent such a value. `StatusOfCode` only records how the three declared values map to their codes.
- Pressure is a `double` in the source. It is modelled as an integer because the only value ever written is the constant 1000.
- StationState.Execute: models the clock `Change` at StationState.cs:146 as re-arming the clock. In this revision the timer is never constructed (StationState.cs:131 is commented out), so the call would fail after the serial number and status were already written; that failure path is not modelled.
- StationState.Execute: takes the serial number as a `ulong` parameter. A missing or wrongly typed input argument, which the cast at StationState.cs:142 would reject, is left to the server's argument validation.
- StationNodeManager.ImportNodeset2Xml: the file read and the node-set parsing (StationNodeManager.cs:107-108, 114) are I/O and SDK code. The model takes the parsed node set (its namespace URIs and its nodes) as a parameter.
- StationNodeManager.CreateAddressSpace: the final `AddReverseReferences` call (StationNodeManager.cs:93) adds reverse references to the external-reference table. It is SDK code and is not modelled, so the contract describes the tables as they are just before that call. Likewise `AddRootNotifier` (StationNodeManager.cs:86) is SDK code run on the root and may add references of its own. The root's reference list in the contract is the list as it is before line 86.
- StationNodeManager.New: the SDK's identifier-increment helper is not part of this model. The model counts up by one and reports exhaustion past 2^32-1 instead of wrapping.
- StationNodeManager.AddBehaviourToPredefinedNode: the display-name comparison is modelled on the text only; how the SDK's localized-text comparison treats the locale is not modelled.
- StationNodeManager.AddPredefinedNode: this is SDK code. It is modelled as running the hook and inserting the node. The SDK's recursive registration of children is replaced by registering the root and its method explicitly in `CreateAddressSpace`.
- The package export (`OnGenerateAASCall`, StationNodeManager.cs:97-101) is an empty placeholder that returns Good. It is modelled only as such by `Call`.
- Namespace indexes are `ushort` in the source; the model uses unbounded naturals.

=== FILE: node_manager_lemmas.dfy ===
/**
 Properties of the node manager that relate several of its operations, or
 the manager's handlers to the station's own command handlers.
 */
module NodeManagerLemmas {

  import opened Wrappers
  import opened StationState
  import opened StationNodeManager

  /** `n` successive allocations, as the list of ids they return. */
  function AllocateAll(m: Manager, n: nat): seq<NodeId>
    decreases n
  {
    if n == 0 then []
    else match New(m)
      case Exhausted => []
      case Allocated(next, id) => [id] + AllocateAll(next, n - 1)
  }

  /**
   Below the `uint` limit, the ids of `n` successive allocations are the
   numbers following the last one used, in order, in the manager's namespace.
   */
  lemma {:induction false} AllocateAllConsecutive(m: Manager, n: nat)
    requires m.lastUsedId + n <= MAX_UINT32
    ensures |AllocateAll(m, n)| == n
    ensures forall i :: 0 <= i < n ==> AllocateAll(m, n)[i] == Numeric(m.namespaceIndex, m.lastUsedId + 1 + i)
    decreases n
  {
    if n > 0 {
      var a := New(m);
      AllocateAllConsecutive(a.next, n - 1);
      var rest := AllocateAll(a.next, n - 1);
      assert AllocateAll(m, n) == [a.id] + rest;
      forall i | 0 <= i < n
        ensures AllocateAll(m, n)[i] == Numeric(m.namespaceIndex, m.lastUsedId + 1 + i)
      {
        if i > 0 {
          assert AllocateAll(m, n)[i] == rest[i - 1];
        }
      }
    }
  }

  /** No id is handed out twice by one manager. */
  lemma AllocatedIdsDistinct(m: Manager, n: nat)
    requires m.lastUsedId + n <= MAX_UINT32
    ensures forall i, j :: 0 <= i < j < |AllocateAll(m, n)| ==> AllocateAll(m, n)[i] != AllocateAll(m, n)[j]
  {
    AllocateAllConsecutive(m, n);
  }

  /** A freshly constructed manager hands out 1 first, in the station namespace. */
  lemma FirstIdIsOne(serverNamespaces: seq<string>)
    ensures New(Construct(serverNamespaces).manager).Allocated?
    ensures New(Construct(serverNamespaces).manager).id.identifier == 1
    ensures Construct(serverNamespaces).serverNamespaces[New(Construct(serverNamespaces).manager).id.namespaceIndex]
      == STATION_NAMESPACE_URI
  {
  }

  /**
   Registering a node makes it findable under its id, in its hooked form;
   an id that was never registered is reported absent.
   */
  lemma FindAfterAdd(table: map<NodeId, Node>, node: Node, other: NodeId)
    requires other !in table && other != node.nodeId
    ensures Find(AddPredefinedNode(table, node), node.nodeId) == Some(AddBehaviourToPredefinedNode(node))
    ensures Find(AddPredefinedNode(table, node), other) == None
  {
  }

  /** Running the behaviour hook twice binds nothing more than running it once. */
  lemma BehaviourHookIdempotent(node: Node)
    ensures AddBehaviourToPredefinedNode(AddBehaviourToPredefinedNode(node))
      == AddBehaviourToPredefinedNode(node)
  {
  }

  /**
   The handlers the manager binds are stubs: the Execute bound to a method
   node reports Good even in fault, where the station's own Execute refuses,
   and none of them changes the station.
   */
  lemma BoundExecuteIgnoresFault(s: Station, serial: U64)
    requires s.status == Fault
    ensures StationState.Execute(s, serial).result == Bad(FAULT_MESSAGE)
    ensures Call(ExecuteStub, s).result == Good
    ensures Call(ExecuteStub, s).station == s
  {
  }

  /**
   The Objects folder's reference list is created once and then kept: a
   second build appends to the list the first build left, rather than
   replacing it.
   */
  lemma CreateAddressSpaceKeepsExistingEntry(m: Manager, namespaces: seq<string>,
                                             external: map<NodeId, seq<Reference>>,
                                             predefined: map<NodeId, Node>, nodeSet: NodeSet)
    requires OBJECTS_FOLDER !in external
    ensures var once := CreateAddressSpace(m, namespaces, external, predefined, nodeSet);
      |once.external[OBJECTS_FOLDER]| == 1
    ensures var once := CreateAddressSpace(m, namespaces, external, predefined, nodeSet);
      var twice := CreateAddressSpace(m, once.namespaces, once.external, once.predefined, nodeSet);
      twice.external[OBJECTS_FOLDER] == [Reference(ORGANIZES, false, once.rootId), Reference(ORGANIZES, false, once.rootId)]
  {
  }
}

=== FILE: station_lemmas.dfy ===
/**
 Properties of the station state machine that span several calls: runs of
 ticks, and commands followed by ticks or by other commands.
 */
module StationLemmas {

  import opened StationState
  import Wrappers

  /** Ticking `a` times and then `b` times is ticking `a + b` times. */
  lemma {:induction false} TickNAdd(s: Station, a: nat, b: nat)
    ensures TickN(s, a + b) == TickN(TickN(s, a), b)
    decreases a
  {
    if a > 0 {
      TickNAdd(Tick(s), a - 1, b);
    }
  }

  /** Fault is absorbing for the clock: no number of ticks changes any field. */
  lemma {:induction false} FaultIsAbsorbing(s: Station, n: nat)
    requires s.status == Fault
    ensures TickN(s, n) == s
    decreases n
  {
    if n > 0 {
      FaultIsAbsorbing(Tick(s), n - 1);
    }
  }

  /**
   Between two multiples of 100 every tick manufactures exactly one part:
   `k` ticks that do not reach past the next multiple of 100 add `k` to the
   manufactured count and change nothing else.
   */
  lemma {:induction false} ManufactureRun(s: Station, k: nat)
    requires s.status != Fault
    requires k > 0 ==> s.manufactured % DISCARD_PERIOD != 0
    requires s.manufactured % DISCARD_PERIOD + k <= DISCARD_PERIOD
    requires s.manufactured + k < U64_LIMIT
    ensures TickN(s, k) == s.(manufactured := s.manufactured + k)
    decreases k
  {
    if k > 0 {
      var t := Tick(s);
      assert t == s.(manufactured := s.manufactured + 1);
      assert t.manufactured % DISCARD_PERIOD ==
        if s.manufactured % DISCARD_PERIOD == DISCARD_PERIOD - 1 then 0 else s.manufactured % DISCARD_PERIOD + 1;
      ManufactureRun(t, k - 1);
    }
  }

  /**
   A manufactured count on a multiple of 100 that is not a multiple of 1000
   never moves again: every further tick discards one more part.
   */
  lemma {:induction false} DiscardRun(s: Station, n: nat)
    requires s.status != Fault
    requires s.manufactured % DISCARD_PERIOD == 0 && s.manufactured % FAULT_PERIOD != 0
    requires s.discarded + n < U64_LIMIT
    ensures TickN(s, n) == s.(discarded := s.discarded + n)
    decreases n
  {
    if n > 0 {
      DiscardRun(Tick(s), n - 1);
    }
  }

  /**
   A station outside fault whose manufactured count lies in 1..100 stays
   there under any number of ticks, with its status unchanged: counts below
   100 climb to 100, and 100 only ever discards.
   */
  lemma {:induction false} StaysBetweenOneAndHundred(s: Station, n: nat)
    requires s.status != Fault && 1 <= s.manufactured <= DISCARD_PERIOD
    ensures TickN(s, n).status == s.status
    ensures 1 <= TickN(s, n).manufactured <= DISCARD_PERIOD
    decreases n
  {
    if n > 0 {
      StaysBetweenOneAndHundred(Tick(s), n - 1);
    }
  }

  /**
   From a manufactured count of 1 the station manufactures up to 100 and
   then discards on every tick, so it never reaches 1000. The exact counts
   are stated below the 2^64 wrap of the discarded count; that the status
   never changes holds for any number of ticks (StaysBetweenOneAndHundred).
   */
  lemma NeverFaultsFromOne(s: Station, n: nat)
    requires s.status != Fault && s.manufactured == 1
    requires s.discarded + n < U64_LIMIT
    ensures n <= 99 ==> TickN(s, n) == s.(manufactured := 1 + n)
    ensures n >= 99 ==> TickN(s, n) == s.(manufactured := 100, discarded := s.discarded + (n - 99))
  {
    if n <= 99 {
      ManufactureRun(s, n);
    } else {
      ManufactureRun(s, 99);
      var t := TickN(s, 99);
      DiscardRun(t, n - 99);
      TickNAdd(s, 99, n - 99);
    }
  }

  /**
   Away from the 2^64 wrap-around, ticks never decrease a counter, and each
   tick adds at most one part to manufactured plus discarded.
   */
  lemma {:induction false} CountersNeverDecrease(s: Station, n: nat)
    requires s.manufactured + n < U64_LIMIT && s.discarded + n < U64_LIMIT
    ensures TickN(s, n).manufactured >= s.manufactured
    ensures TickN(s, n).discarded >= s.discarded
    ensures TickN(s, n).manufactured + TickN(s, n).discarded <= s.manufactured + s.discarded + n
    decreases n
  {
    if n > 0 {
      CountersNeverDecrease(Tick(s), n - 1);
    }
  }

  /** Outside fault and a multiple of 1000, a tick produces exactly one part, kept or discarded. */
  lemma OnePartPerTick(s: Station)
    requires s.status != Fault && s.manufactured % FAULT_PERIOD != 0
    requires s.manufactured + 1 < U64_LIMIT && s.discarded + 1 < U64_LIMIT
    ensures Tick(s).manufactured + Tick(s).discarded == s.manufactured + s.discarded + 1
    ensures Tick(s).status == s.status
  {
  }

  /**
   A fault raised by the clock comes back on the first tick after Reset:
   neither Reset nor the fault branch moves the manufactured count off its
   multiple of 1000.
   */
  lemma FaultReturnsAfterReset(s: Station)
    requires s.status != Fault && s.manufactured % FAULT_PERIOD == 0
    ensures Tick(s).status == Fault
    ensures Tick(Reset(Tick(s)).station).status == Fault
    ensures Tick(Reset(Tick(s)).station).manufactured == s.manufactured
  {
  }

  /**
   Reset from fault followed by Execute succeeds, keeps both counters and
   the pressure, and takes the caller's serial number.
   */
  lemma ResetThenExecute(s: Station, serial: U64)
    ensures Execute(Reset(s).station, serial).result == Good
    ensures Execute(Reset(s).station, serial).station.manufactured == s.manufactured
    ensures Execute(Reset(s).station, serial).station.discarded == s.discarded
    ensures Execute(Reset(s).station, serial).station.pressure == s.pressure
    ensures Execute(Reset(s).station, serial).station.serialNumber == serial
  {
  }

  /** Opening the valve twice is the same as opening it once. */
  lemma OpenPressureReleaseValveIdempotent(s: Station)
    ensures OpenPressureReleaseValve(OpenPressureReleaseValve(s).station) == OpenPressureReleaseValve(s)
  {
  }

  /** Each integer status code names exactly the status it is the code of. */
  lemma StatusCodeRoundTrip(st: StationStatus)
    ensures StatusOfCode(StatusCode(st)) == Wrappers.Some(st)
  {
  }
}

=== FILE: station_node_manager.dfy ===
/**
 The station's node manager: the numeric node-id allocator, the folder and
 method constructors, the part of the address-space build that links the
 station's root folder under the standard Objects folder, the hook that binds
 command handlers to imported method nodes, and the handlers it binds.

 Nodes are immutable records addressed by node id; the manager's
 predefined-node table is a map from node id to node. Object references in
 the source (a node's parent, its children) become node ids here.
 */
module StationNodeManager {

  import opened Wrappers
  import opened StationState

  /** Largest value of a C# `uint`, the width of a numeric node identifier. */
  const MAX_UINT32: int := 0xFFFF_FFFF

  type U32 = x: int | 0 <= x <= MAX_UINT32

  /** A node id: a namespace index plus a numeric or a string identifier. */
  datatype NodeId =
    | Numeric(namespaceIndex: nat, identifier: U32)
    | Named(namespaceIndex: nat, path: string)

  datatype QualifiedName = QualifiedName(namespaceIndex: nat, name: string)

  datatype LocalizedText = LocalizedText(locale: string, text: string)

  /** Standard nodes of namespace 0 that the manager refers to. */
  const ORGANIZES: NodeId := Numeric(0, 35)
  const HAS_COMPONENT: NodeId := Numeric(0, 47)
  const FOLDER_TYPE: NodeId := Numeric(0, 61)
  const OBJECTS_FOLDER: NodeId := Numeric(0, 85)

  const STATION_NAMESPACE_URI: string := "http://opcfoundation.org/UA/Station/"

  const WRITE_MASK_NONE: nat := 0
  const EVENT_NOTIFIER_NONE: nat := 0
  const SUBSCRIBE_TO_EVENTS: nat := 1

  const ROOT_PATH: string := "AssetAdminShell"
  const GENERATE_AAS_PATH: string := "GenerateAAS"

  datatype NodeClass = ObjectNode | MethodNode | VariableNode

  /** The call handlers the manager can bind to a method node. */
  datatype Handler = ExecuteStub | ResetStub | OpenPressureReleaseValveStub | GenerateAasHandler

  /** A typed reference from a node; `isInverse` marks it as pointing back to its source. */
  datatype Reference = Reference(referenceTypeId: NodeId, isInverse: bool, targetId: NodeId)

  datatype Node = Node(
    nodeId: NodeId,
    browseName: QualifiedName,
    displayName: LocalizedText,
    symbolicName: string,
    nodeClass: NodeClass,
    referenceTypeId: NodeId,
    typeDefinitionId: Option<NodeId>,
    parentId: Option<NodeId>,
    children: seq<NodeId>,
    references: seq<Reference>,
    writeMask: nat,
    userWriteMask: nat,
    eventNotifier: nat,
    executable: bool,
    userExecutable: bool,
    onCall: Option<Handler>)

  /** The manager's own state: its namespace index and the last numeric id it handed out. */
  datatype Manager = Manager(namespaceIndex: nat, lastUsedId: nat)

  // ---------------------------------------------------------------------------
  // Namespace table

  /** The namespace table after a lookup, with the index the URI has in it. */
  datatype TableLookup = TableLookup(table: seq<string>, index: nat)

  /** Position of the first occurrence of `uri` in `table` at or after `from`, if any. */
  function FindFrom(table: seq<string>, uri: string, from: nat): (r: Option<nat>)
    requires from <= |table|
    ensures r.Some? ==> from <= r.value < |table| && table[r.value] == uri
    ensures r.Some? ==> forall j :: from <= j < r.value ==> table[j] != uri
    ensures r.None? ==> forall j :: from <= j < |table| ==> table[j] != uri
    decreases |table| - from
  {
    if from == |table| then None
    else if table[from] == uri then Some(from)
    else FindFrom(table, uri, from + 1)
  }

  /**
   Index of `uri` in the namespace table, appending it when absent: indexes
   are handed out in first-use order and a known URI keeps its index.
   */
  function GetIndexOrAppend(table: seq<string>, uri: string): (r: TableLookup)
    ensures r.index < |r.table| && r.table[r.index] == uri
    ensures forall j :: 0 <= j < r.index ==> r.table[j] != uri
    ensures uri in table ==> r.table == table
    ensures uri !in table ==> r.table == table + [uri] && r.index == |table|
  {
    match FindFrom(table, uri, 0)
    case Some(i) => TableLookup(table, i)
    case None => TableLookup(table + [uri], |table|)
  }

  /** A manager built against the server's namespace table. */
  datatype Construction = Construction(manager: Manager, serverNamespaces: seq<string>)

  /**
   The constructor: registers the station namespace, whose index is its first
   occurrence in the server's table, and starts the id counter at 0.
   */
  function Construct(serverNamespaces: seq<string>): (r: Construction)
    ensures r.manager.lastUsedId == 0
    ensures r.manager.namespaceIndex < |r.serverNamespaces|
    ensures r.serverNamespaces[r.manager.namespaceIndex] == STATION_NAMESPACE_URI
    ensures forall j :: 0 <= j < r.manager.namespaceIndex ==> r.serverNamespaces[j] != STATION_NAMESPACE_URI
    ensures STATION_NAMESPACE_URI in serverNamespaces ==> r.serverNamespaces == serverNamespaces
    ensures STATION_NAMESPACE_URI !in serverNamespaces ==>
      r.serverNamespaces == serverNamespaces + [STATION_NAMESPACE_URI]
  {
    var namespaceUris := [STATION_NAMESPACE_URI];
    var lookup := GetIndexOrAppend(serverNamespaces, namespaceUris[0]);
    Construction(Manager(lookup.index, 0), lookup.table)
  }

  // ---------------------------------------------------------------------------
  // Numeric id allocation

  datatype Allocation = Allocated(next: Manager, id: NodeId) | Exhausted

  /**
   The id factory: the next numeric id in the manager's own namespace, one
   greater than every id it handed out before. Past the `uint` range the
   counter is exhausted.
   */
  function New(m: Manager): (r: Allocation)
    ensures r.Allocated? <==> m.lastUsedId < MAX_UINT32
    ensures r.Allocated? ==> r.id.Numeric? && r.id.namespaceIndex == m.namespaceIndex
    ensures r.Allocated? ==> r.id.identifier == m.lastUsedId + 1
    ensures r.Allocated? ==> r.next == m.(lastUsedId := r.id.identifier)
  {
    if m.lastUsedId < MAX_UINT32 then
      var id := m.lastUsedId + 1;
      Allocated(m.(lastUsedId := id), Numeric(m.namespaceIndex, id))
    else
      Exhausted
  }

  // ---------------------------------------------------------------------------
  // Constructors

  /** A freshly built node, with its parent as it is after the child was attached. */
  datatype Created = Created(node: Node, parent: Option<Node>)

  /** True when `child` is attached under `parent` in both directions. */
  predicate IsChildOf(child: Node, parent: Node)
  {
    child.parentId == Some(parent.nodeId) && child.nodeId in parent.children
  }

  /**
   `parent` with `child` appended to its children: the parent keeps its
   identity and its earlier children, and a child that names this parent is
   linked to it in both directions.
   */
  function AddChild(parent: Node, child: Node): (r: Node)
    ensures r.nodeId == parent.nodeId
    ensures |r.children| == |parent.children| + 1 && r.children[..|parent.children|] == parent.children
    ensures r.children[|parent.children|] == child.nodeId
    ensures r == parent.(children := r.children)
    ensures child.parentId == Some(parent.nodeId) ==> IsChildOf(child, r)
  {
    parent.(children := parent.children + [child.nodeId])
  }

  /** A node of the given class whose id and browse name are `path` in the manager's namespace. */
  function NewNode(m: Manager, parent: Option<Node>, path: string, name: string, nodeClass: NodeClass,
                   referenceTypeId: NodeId, typeDefinitionId: Option<NodeId>, executable: bool): Node
  {
    Node(
      nodeId := Named(m.namespaceIndex, path),
      browseName := QualifiedName(m.namespaceIndex, path),
      displayName := LocalizedText("en", name),
      symbolicName := name,
      nodeClass := nodeClass,
      referenceTypeId := referenceTypeId,
      typeDefinitionId := typeDefinitionId,
      parentId := if parent.Some? then Some(parent.value.nodeId) else None,
      children := [],
      references := [],
      writeMask := WRITE_MASK_NONE,
      userWriteMask := WRITE_MASK_NONE,
      eventNotifier := EVENT_NOTIFIER_NONE,
      executable := executable,
      userExecutable := executable,
      onCall := None)
  }

  /** Attaches `child` under `parent` when there is a parent. */
  function Attach(parent: Option<Node>, child: Node): Option<Node>
  {
    if parent.Some? then Some(AddChild(parent.value, child)) else None
  }

  /**
   A folder whose node id and browse name are `path` in the manager's
   namespace, organised under its parent, with no handler and nothing
   writable. With a parent it becomes that parent's last child; without one
   no parent is touched.
   */
  function CreateFolder(m: Manager, parent: Option<Node>, path: string, name: string): (r: Created)
    ensures r.node.nodeId == Named(m.namespaceIndex, path)
    ensures r.node.browseName == QualifiedName(m.namespaceIndex, path)
    ensures r.node.displayName == LocalizedText("en", name) && r.node.symbolicName == name
    ensures r.node.nodeClass == ObjectNode
    ensures r.node.referenceTypeId == ORGANIZES && r.node.typeDefinitionId == Some(FOLDER_TYPE)
    ensures r.node.children == [] && r.node.references == [] && r.node.onCall == None
    ensures r.node.writeMask == WRITE_MASK_NONE && r.node.userWriteMask == WRITE_MASK_NONE
    ensures r.node.eventNotifier == EVENT_NOTIFIER_NONE
    ensures parent.None? ==> r.parent.None? && r.node.parentId.None?
    ensures parent.Some? ==> r.parent.Some? && IsChildOf(r.node, r.parent.value)
    ensures parent.Some? ==> r.parent.value == parent.value.(children := parent.value.children + [r.node.nodeId])
  {
    var folder := NewNode(m, parent, path, name, ObjectNode, ORGANIZES, Some(FOLDER_TYPE), false);
    Created(folder, Attach(parent, folder))
  }

  /**
   A method node whose node id and browse name are `path` in the manager's
   namespace, a component of its parent, executable by everyone, with no
   handler yet. With a parent it becomes that parent's last child.
   */
  function CreateMethod(m: Manager, parent: Option<Node>, path: string, name: string): (r: Created)
    ensures r.node.nodeId == Named(m.namespaceIndex, path)
    ensures r.node.browseName == QualifiedName(m.namespaceIndex, path)
    ensures r.node.displayName == LocalizedText("en", name) && r.node.symbolicName == name
    ensures r.node.nodeClass == MethodNode
    ensures r.node.referenceTypeId == HAS_COMPONENT && r.node.typeDefinitionId == None
    ensures r.node.executable && r.node.userExecutable
    ensures r.node.children == [] && r.node.references == [] && r.node.onCall == None
    ensures r.node.writeMask == WRITE_MASK_NONE && r.node.userWriteMask == WRITE_MASK_NONE
    ensures parent.None? ==> r.parent.None? && r.node.parentId.None?
    ensures parent.Some? ==> r.parent.Some? && IsChildOf(r.node, r.parent.value)
    ensures parent.Some? ==> r.parent.value == parent.value.(children := parent.value.children + [r.node.nodeId])
  {
    var methodNode := NewNode(m, parent, path, name, MethodNode, HAS_COMPONENT, None, true);
    Created(methodNode, Attach(parent, methodNode))
  }

  // ---------------------------------------------------------------------------
  // Behaviour attachment and handlers

  /** The command a method display name selects, if it names one. */
  function HandlerForName(name: string): Option<Handler>
  {
    if name == "Execute" then Some(ExecuteStub)
    else if name == "Reset" then Some(ResetStub)
    else if name == "OpenPressureReleaseValve" then Some(OpenPressureReleaseValveStub)
    else None
  }

  /**
   The hook run on every predefined node: a method node whose display name
   is Execute, Reset or OpenPressureReleaseValve gets that command's handler;
   every other node is left exactly as it was. The node keeps its identity:
   the type switch on object nodes has no cases, so the given node is always
   the one returned.
   */
  function AddBehaviourToPredefinedNode(node: Node): (r: Node)
    ensures r.nodeId == node.nodeId
    ensures r == node.(onCall := r.onCall)
    ensures node.nodeClass == MethodNode && node.displayName.text == "Execute" ==> r.onCall == Some(ExecuteStub)
    ensures node.nodeClass == MethodNode && node.displayName.text == "Reset" ==> r.onCall == Some(ResetStub)
    ensures node.nodeClass == MethodNode && node.displayName.text == "OpenPressureReleaseValve" ==>
      r.onCall == Some(OpenPressureReleaseValveStub)
    ensures node.nodeClass != MethodNode ==> r == node
    ensures node.displayName.text !in {"Execute", "Reset", "OpenPressureReleaseValve"} ==> r == node
  {
    // Object nodes whose numeric type lives in the manager's namespace reach
    // a switch on that type with no cases; every path returns this node.
    if node.nodeClass == MethodNode && HandlerForName(node.displayName.text).Some? then
      node.(onCall := HandlerForName(node.displayName.text))
    else
      node
  }

  /**
   Calling a handler the manager binds. The three command handlers of the
   manager are stubs and the package export is not implemented: each returns
   Good and leaves the station as it was.
   */
  function Call(h: Handler, s: Station): (r: Reply)
    ensures r.result == Good
    ensures r.station == s
  {
    match h
    case ExecuteStub => Reply(s, Good)
    case ResetStub => Reply(s, Good)
    case OpenPressureReleaseValveStub => Reply(s, Good)
    case GenerateAasHandler => Reply(s, Good)
  }

  // ---------------------------------------------------------------------------
  // Predefined-node table and address space

  /** Node-id lookup in the table; a missing id is an absent result, not an error. */
  function Find(table: map<NodeId, Node>, id: NodeId): Option<Node>
  {
    if id in table then Some(table[id]) else None
  }

  /** Registers a node in the predefined-node table after running the behaviour hook on it. */
  function AddPredefinedNode(table: map<NodeId, Node>, node: Node): (r: map<NodeId, Node>)
    ensures r.Keys == table.Keys + {node.nodeId}
    ensures r[node.nodeId] == AddBehaviourToPredefinedNode(node)
    ensures forall id :: id in table && id != node.nodeId ==> r[id] == table[id]
  {
    var active := AddBehaviourToPredefinedNode(node);
    table[active.nodeId := active]
  }

  /** The ids of the first `k` nodes of a batch. */
  function BatchIds(nodes: seq<Node>, k: nat): set<NodeId>
    requires k <= |nodes|
  {
    if k == 0 then {} else BatchIds(nodes, k - 1) + {nodes[k - 1].nodeId}
  }

  /** True when no node between positions `i` and `k` of the batch has the id of the node at `i`. */
  predicate LastWithIdBefore(nodes: seq<Node>, i: nat, k: nat)
    requires i < k <= |nodes|
  {
    forall j :: i < j < k ==> nodes[j].nodeId != nodes[i].nodeId
  }

  /** The table holds the hooked form of every node among the first `k` not superseded before `k`. */
  ghost predicate HoldsHookedBatch(r: map<NodeId, Node>, nodes: seq<Node>, k: nat)
    requires k <= |nodes|
  {
    forall i :: 0 <= i < k && LastWithIdBefore(nodes, i, k) ==>
      nodes[i].nodeId in r && r[nodes[i].nodeId] == AddBehaviourToPredefinedNode(nodes[i])
  }

  /**
   Registers the first `count` nodes of an imported batch one after the
   other, each through the behaviour hook. Every id among them ends up in the
   table holding the hooked form of the last of them with that id; every
   other entry is kept.
   */
  function RegisterImportedNodes(table: map<NodeId, Node>, nodes: seq<Node>, count: nat)
    : (r: map<NodeId, Node>)
    requires count <= |nodes|
    ensures r.Keys == table.Keys + BatchIds(nodes, count)
    ensures HoldsHookedBatch(r, nodes, count)
    ensures forall id :: id in table && id !in BatchIds(nodes, count) ==> r[id] == table[id]
    decreases count
  {
    if count == 0 then table
    else AddPredefinedNode(RegisterImportedNodes(table, nodes, count - 1), nodes[count - 1])
  }

  /** The node set as the import reads it: its namespace URIs and its node definitions. */
  datatype NodeSet = NodeSet(namespaceUris: seq<string>, nodes: seq<Node>)

  /**
   The entries `r` appended to `table` come in first-use order of `uris`:
   an entry appended before another was already used by `uris` before the
   other's first use.
   */
  ghost predicate FirstUseOrder(table: seq<string>, uris: seq<string>, r: seq<string>)
  {
    forall i, j, k :: |table| <= i < j < |r| && 0 <= k < |uris| && uris[k] == r[j] ==> r[i] in uris[..k]
  }

  /**
   One registration step keeps first-use order: if `r` extends the table
   after `uris[0]` is registered in first-use order of `uris[1..]`, it
   extends `table` in first-use order of `uris`.
   */
  lemma FirstUseOrderStep(table: seq<string>, uris: seq<string>, r: seq<string>)
    requires |uris| > 0
    requires var t1 := GetIndexOrAppend(table, uris[0]).table;
      |t1| <= |r| && r[..|t1|] == t1
      && (forall j :: |t1| <= j < |r| ==> r[j] !in t1)
      && FirstUseOrder(t1, uris[1..], r)
    ensures FirstUseOrder(table, uris, r)
  {
  }

  /**
   Registers every URI of a list in the namespace table, in order: the table
   keeps its entries and their positions, every URI of the list is present
   afterwards, each new entry is a URI of the list that was missing, and the
   new entries come in the order of their first use in the list.
   */
  function AppendNamespaces(table: seq<string>, uris: seq<string>): (r: seq<string>)
    ensures |table| <= |r| && r[..|table|] == table
    ensures forall i :: 0 <= i < |uris| ==> uris[i] in r
    ensures forall j :: |table| <= j < |r| ==> r[j] in uris && r[j] !in table
    ensures forall i, j :: |table| <= i < j < |r| ==> r[i] != r[j]
    ensures FirstUseOrder(table, uris, r)
    decreases |uris|
  {
    if |uris| == 0 then table
    else
      var r := AppendNamespaces(GetIndexOrAppend(table, uris[0]).table, uris[1..]);
      FirstUseOrderStep(table, uris, r);
      r
  }

  /** The namespace table and the predefined-node table after an import. */
  datatype Imported = Imported(namespaces: seq<string>, predefined: map<NodeId, Node>)

  /**
   The node-set import once the file is parsed: the node set's namespace
   URIs are registered, then every node is registered through the hook.
   */
  function ImportNodeset2Xml(namespaces: seq<string>, predefined: map<NodeId, Node>, nodeSet: NodeSet)
    : (r: Imported)
    ensures |namespaces| <= |r.namespaces| && r.namespaces[..|namespaces|] == namespaces
    ensures forall i :: 0 <= i < |nodeSet.namespaceUris| ==> nodeSet.namespaceUris[i] in r.namespaces
    ensures forall j :: |namespaces| <= j < |r.namespaces| ==>
      r.namespaces[j] in nodeSet.namespaceUris && r.namespaces[j] !in namespaces
    ensures forall i, j :: |namespaces| <= i < j < |r.namespaces| ==> r.namespaces[i] != r.namespaces[j]
    ensures FirstUseOrder(namespaces, nodeSet.namespaceUris, r.namespaces)
    ensures r.predefined.Keys == predefined.Keys + BatchIds(nodeSet.nodes, |nodeSet.nodes|)
    ensures HoldsHookedBatch(r.predefined, nodeSet.nodes, |nodeSet.nodes|)
    ensures forall id :: id in predefined && id !in BatchIds(nodeSet.nodes, |nodeSet.nodes|) ==>
      r.predefined[id] == predefined[id]
  {
    Imported(
      AppendNamespaces(namespaces, nodeSet.namespaceUris),
      RegisterImportedNodes(predefined, nodeSet.nodes, |nodeSet.nodes|))
  }

  /**
   Get-or-insert of the Objects folder's reference list: afterwards there is
   an entry for the Objects folder, and an entry already there is kept.
   */
  function EnsureObjectsFolderEntry(external: map<NodeId, seq<Reference>>): (r: map<NodeId, seq<Reference>>)
    ensures OBJECTS_FOLDER in r
    ensures r.Keys == external.Keys + {OBJECTS_FOLDER}
    ensures forall id :: id in external ==> r[id] == external[id]
    ensures OBJECTS_FOLDER !in external ==> r[OBJECTS_FOLDER] == []
  {
    if OBJECTS_FOLDER in external then external else external[OBJECTS_FOLDER := []]
  }

  /** The outcome of building the address space. */
  datatype AddressSpace = AddressSpace(
    namespaces: seq<string>,
    external: map<NodeId, seq<Reference>>,
    predefined: map<NodeId, Node>,
    rootId: NodeId,
    generateAasId: NodeId)

  /**
   Builds the station's part of the address space from the parsed node set:
   the import, then a root folder organised under the Objects folder (one
   Organizes reference appended to the Objects folder's list, its inverse
   kept on the root), subscribable for events, with a GenerateAAS method
   child bound to the export handler; both are registered as predefined
   nodes after the imported ones.
   */
  function CreateAddressSpace(m: Manager, namespaces: seq<string>, external: map<NodeId, seq<Reference>>,
                              predefined: map<NodeId, Node>, nodeSet: NodeSet)
    : (r: AddressSpace)
    ensures r.rootId == Named(m.namespaceIndex, ROOT_PATH)
    ensures r.generateAasId == Named(m.namespaceIndex, GENERATE_AAS_PATH)
    // the namespace table: the node set's URIs registered, earlier entries kept
    ensures |namespaces| <= |r.namespaces| && r.namespaces[..|namespaces|] == namespaces
    ensures forall i :: 0 <= i < |nodeSet.namespaceUris| ==> nodeSet.namespaceUris[i] in r.namespaces
    ensures forall j :: |namespaces| <= j < |r.namespaces| ==>
      r.namespaces[j] in nodeSet.namespaceUris && r.namespaces[j] !in namespaces
    ensures forall i, j :: |namespaces| <= i < j < |r.namespaces| ==> r.namespaces[i] != r.namespaces[j]
    ensures FirstUseOrder(namespaces, nodeSet.namespaceUris, r.namespaces)
    // the external references: one Organizes reference appended for the Objects folder
    ensures r.external.Keys == external.Keys + {OBJECTS_FOLDER}
    ensures OBJECTS_FOLDER in external ==>
      r.external[OBJECTS_FOLDER] == external[OBJECTS_FOLDER] + [Reference(ORGANIZES, false, r.rootId)]
    ensures OBJECTS_FOLDER !in external ==>
      r.external[OBJECTS_FOLDER] == [Reference(ORGANIZES, false, r.rootId)]
    ensures forall id :: id in external && id != OBJECTS_FOLDER ==> r.external[id] == external[id]
    // the predefined nodes: the imported batch, then the root and its method
    ensures r.predefined.Keys ==
      predefined.Keys + BatchIds(nodeSet.nodes, |nodeSet.nodes|) + {r.rootId, r.generateAasId}
    ensures forall i ::
      (0 <= i < |nodeSet.nodes| && LastWithIdBefore(nodeSet.nodes, i, |nodeSet.nodes|)
       && nodeSet.nodes[i].nodeId != r.rootId && nodeSet.nodes[i].nodeId != r.generateAasId) ==>
      nodeSet.nodes[i].nodeId in r.predefined
      && r.predefined[nodeSet.nodes[i].nodeId] == AddBehaviourToPredefinedNode(nodeSet.nodes[i])
    ensures forall id ::
      (id in predefined && id !in BatchIds(nodeSet.nodes, |nodeSet.nodes|)
       && id != r.rootId && id != r.generateAasId) ==>
      r.predefined[id] == predefined[id]
    ensures r.predefined[r.rootId].parentId == None
    ensures r.predefined[r.rootId].references == [Reference(ORGANIZES, true, OBJECTS_FOLDER)]
    ensures r.predefined[r.rootId].eventNotifier == SUBSCRIBE_TO_EVENTS
    ensures r.predefined[r.rootId].children == [r.generateAasId]
    ensures IsChildOf(r.predefined[r.generateAasId], r.predefined[r.rootId])
    ensures r.predefined[r.generateAasId].onCall == Some(GenerateAasHandler)
  {
    var external1 := EnsureObjectsFolderEntry(external);
    var references := external1[OBJECTS_FOLDER];
    var imported := ImportNodeset2Xml(namespaces, predefined, nodeSet);
    var root := CreateFolder(m, None, ROOT_PATH, ROOT_PATH).node;
    var root1 := root.(references := root.references + [Reference(ORGANIZES, true, OBJECTS_FOLDER)]);
    var external2 := external1[OBJECTS_FOLDER := references + [Reference(ORGANIZES, false, root1.nodeId)]];
    var root2 := root1.(eventNotifier := SUBSCRIBE_TO_EVENTS);
    var created := CreateMethod(m, Some(root2), GENERATE_AAS_PATH, GENERATE_AAS_PATH);
    var generateAas := created.node.(onCall := Some(GenerateAasHandler));
    var root3 := created.parent.value;
    var predefined1 := AddPredefinedNode(imported.predefined, root3);
    var predefined2 := AddPredefinedNode(predefined1, generateAas);
    AddressSpace(imported.namespaces, external2, predefined2, root3.nodeId, generateAas.nodeId)
  }
}

=== FILE: station_state.dfy ===
/**
 The production/fault state machine of one simulated station.

 The station is an immutable record; each remote command and the periodic
 timer tick is a pure function from the record before the call to the record
 after it (plus, for the commands, the service result handed back to the
 caller). Every operation is treated as one atomic step: the lock the source
 takes around them is not modelled.
 */
module StationState {

  import opened Wrappers

  /** Exclusive upper bound of a C# `ulong`. */
  const U64_LIMIT: int := 0x1_0000_0000_0000_0000

  /** Values a C# `ulong` can hold. */
  type U64 = x: int | 0 <= x < U64_LIMIT

  const U32_MODULUS: int := 0x1_0000_0000
  const I32_LIMIT: int := 0x8000_0000

  /** Pressure the release valve restores. */
  const NOMINAL_PRESSURE: int := 1000

  /** Every this many manufactured parts the station goes into fault. */
  const FAULT_PERIOD: int := 1000

  /** Every this many manufactured parts one part is discarded. */
  const DISCARD_PERIOD: int := 100

  datatype StationStatus = Ready | WorkInProgress | Fault

  /** The integer value of each status in the source's enumeration. */
  function StatusCode(s: StationStatus): int
  {
    match s
    case Ready => 0
    case WorkInProgress => 1
    case Fault => 2
  }

  /** The status an integer value stands for, if any. */
  function StatusOfCode(code: int): (r: Option<StationStatus>)
    ensures r.Some? ==> StatusCode(r.value) == code
    ensures r.None? <==> !(0 <= code <= 2)
  {
    if code == 0 then Some(Ready)
    else if code == 1 then Some(WorkInProgress)
    else if code == 2 then Some(Fault)
    else None
  }

  /** The station clock: never started, or firing every `period` ms after `dueTime` ms. */
  datatype Timer = Disarmed | Armed(dueTime: int, period: int)

  /** The station's product and telemetry fields that the transitions read or write. */
  datatype Station = Station(
    status: StationStatus,
    serialNumber: U64,
    manufactured: U64,
    discarded: U64,
    actualCycleTime: U64,
    pressure: int,
    clock: Timer)

  /** What a method handler hands back to the caller. */
  datatype ServiceResult = Good | Bad(message: string)

  /** The station after a command, together with the command's result. */
  datatype Reply = Reply(station: Station, result: ServiceResult)

  const FAULT_MESSAGE: string := "Machine is in fault state, call reset first!"

  /** C# unchecked `++` on a `ulong`: wraps from the largest value to zero. */
  function Inc64(x: U64): (r: U64)
    ensures x + 1 < U64_LIMIT ==> r == x + 1
    ensures x + 1 == U64_LIMIT ==> r == 0
  {
    (x + 1) % U64_LIMIT
  }

  /** C# unchecked `(int)` cast of a `ulong`: keeps the low 32 bits as a signed value. */
  function ToInt32(x: U64): (r: int)
    ensures -I32_LIMIT <= r < I32_LIMIT
    ensures (x - r) % U32_MODULUS == 0
    ensures x < I32_LIMIT ==> r == x
  {
    var low := x % U32_MODULUS;
    if low < I32_LIMIT then low else low - U32_MODULUS
  }

  /**
   The Execute command: refused while in fault; otherwise it takes the serial
   number supplied by the caller, starts work and re-arms the clock at the
   actual cycle time.
   */
  function Execute(s: Station, serial: U64): (r: Reply)
    ensures s.status == Fault <==> r.result != Good
    ensures s.status == Fault ==> r.station == s && r.result == Bad(FAULT_MESSAGE)
    ensures s.status != Fault ==>
      && r.station.serialNumber == serial
      && r.station.status == WorkInProgress
      && r.station.clock == Armed(ToInt32(s.actualCycleTime), ToInt32(s.actualCycleTime))
    // nothing but the serial number, the status and the clock ever changes
    ensures r.station.manufactured == s.manufactured
    ensures r.station.discarded == s.discarded
    ensures r.station.pressure == s.pressure
    ensures r.station.actualCycleTime == s.actualCycleTime
  {
    if s.status == Fault then
      Reply(s, Bad(FAULT_MESSAGE))
    else
      var period := ToInt32(s.actualCycleTime);
      Reply(s.(serialNumber := serial, status := WorkInProgress, clock := Armed(period, period)), Good)
  }

  /** The Reset command: from any status back to Ready, nothing else touched. */
  function Reset(s: Station): (r: Reply)
    ensures r.result == Good
    ensures r.station.status == Ready
    ensures r.station == s.(status := r.station.status)
  {
    Reply(s.(status := Ready), Good)
  }

  /** The OpenPressureReleaseValve command: pressure back to nominal, nothing else touched. */
  function OpenPressureReleaseValve(s: Station): (r: Reply)
    ensures r.result == Good
    ensures r.station.pressure == NOMINAL_PRESSURE
    ensures r.station == s.(pressure := r.station.pressure)
  {
    Reply(s.(pressure := 1000), Good)
  }

  /** How many of status, manufactured count and discarded count differ between two records. */
  function ProductionFieldsChanged(s: Station, t: Station): nat
  {
    (if s.status != t.status then 1 else 0)
    + (if s.manufactured != t.manufactured then 1 else 0)
    + (if s.discarded != t.discarded then 1 else 0)
  }

  /**
   One timer tick. In fault nothing happens. Otherwise the manufactured count
   decides: a multiple of 1000 faults the station, a multiple of 100 discards
   one part, anything else manufactures one part. The 1000 check comes first,
   so a multiple of 1000 never discards; neither the fault nor the discard
   branch advances the manufactured count.
   */
  function Tick(s: Station): (r: Station)
    // the tick only ever touches the production fields
    ensures r == s.(status := r.status, manufactured := r.manufactured, discarded := r.discarded)
    ensures ProductionFieldsChanged(s, r) <= 1
    ensures s.status == Fault ==> r == s
    ensures s.status != Fault ==> ProductionFieldsChanged(s, r) == 1
    // when the station faults
    ensures r.status == Fault <==> s.status == Fault || s.manufactured % FAULT_PERIOD == 0
    ensures r.status != s.status ==> r.status == Fault
    // when a part is discarded: never on a multiple of 1000
    ensures r.discarded != s.discarded <==>
      s.status != Fault && s.manufactured % DISCARD_PERIOD == 0 && s.manufactured % FAULT_PERIOD != 0
    ensures r.discarded != s.discarded ==> r.discarded == Inc64(s.discarded)
    // when a part is manufactured
    ensures r.manufactured != s.manufactured <==> s.status != Fault && s.manufactured % DISCARD_PERIOD != 0
    ensures r.manufactured != s.manufactured ==> r.manufactured == Inc64(s.manufactured)
  {
    if s.status == Fault then
      s
    else if s.manufactured % 1000 == 0 then
      s.(status := Fault)
    else if s.manufactured % 100 == 0 then
      s.(discarded := Inc64(s.discarded))
    else
      s.(manufactured := Inc64(s.manufactured))
  }

  /** `n` consecutive ticks with no command in between. */
  function TickN(s: Station, n: nat): (r: Station)
    ensures r.serialNumber == s.serialNumber
    ensures r.pressure == s.pressure
    ensures r.clock == s.clock
    ensures r.actualCycleTime == s.actualCycleTime
    ensures s.status == Fault ==> r.status == Fault
    decreases n
  {
    if n == 0 then s else TickN(Tick(s), n - 1)
  }
}

=== FILE: wrappers.dfy ===
/** The Some/None datatype standing in for the source's nullable references. */
module Wrappers {

  datatype Option<+T> = None | Some(value: T)
}
